=== FILE: README.md ===
# Storefront cart, checkout and catalogue logic in Dafny

This project models the small pure core of an e-commerce storefront written in
TypeScript (Next.js, zustand, zod) and proves properties of it. The core is:

- the client-side cart store and its merge-or-append `addToCart`;
- the cart total, the payment step's elements options, and the payment-intent
  request with the decisions `handleSubmit` takes;
- the checkout progress bar for the three phases;
- the tag editor of the variant form and the catalogue's tag filter;
- the variant image list around an upload;
- the zod schemas for variants, account settings and registration;
- the analytics day check and the five-bucket weekly revenue chart;
- the review average.

Everything is a pure function over immutable datatypes and sequences. The
clock, the browser's blob urls, the email-format test, the password hash
comparison and every collaborator's answer (payment library, form elements,
server action, payment confirmation, upload service) are parameters.

One module per source file:

- `ClientStore` models `lib/client-store.ts`.
- `CartItems` models `components/cart/cart-item.tsx`.
- `Payment` models `components/cart/payment.tsx`.
- `PaymentForm` models `components/cart/payment-form.tsx`.
- `CartProgress` models `components/cart/cart-progress.tsx`.
- `InputTags` models `app/dashboard/products/input-tags.tsx`.
- `Products` models `components/products/products.tsx`.
- `VariantImages` models `app/dashboard/products/variant-images.tsx`.
- `VariantSchema`, `SettingsSchema` and `RegisterSchema` model the files under `types/`.
- `Dates` models `app/dashboard/analytics/check-date.ts`.
- `MonthlyChart` models `app/dashboard/analytics/monthly-chart.ts`.
- `ReviewAverage` models `lib/review-average.ts`.

Two helper modules are shared:

- `Common` holds `Option`, validation issues, zod's `.min` and JavaScript's `search`.
- `Seqs` holds `reduce` as a left fold, a reference `Sum`, `filter`, and the permutation lemma.

Money, revenue and ratings are `real`. Quantities are `int`. A date is an
`Instant`: a local calendar-day number plus milliseconds since local midnight.

## Model

| member | source | states |
|---|---|---|
| ClientStore.InitialCartEmpty | lib/client-store.ts:24 | the store starts with an empty cart, which has one line per variant and total quantity 0 |
| ClientStore.Find | lib/client-store.ts:29-31 | the lookup finds a line iff some line carries the variant id, and what it finds is such a line of the cart |
| ClientStore.AddToCart | lib/client-store.ts:26-66 | for a present variant id: the length is unchanged, the matching line's quantity becomes old + incoming, its name, image, price and id are kept, and the other lines are unchanged in place; for an absent id: the item is appended at the end as given; the id is present afterwards; one line per variant id is preserved |
| ClientStore.AddToCartTotalQuantity | lib/client-store.ts:33-64 | on a cart with one line per variant, the sum of all quantities grows by exactly the incoming quantity |
| ClientStore.AddSameVariantRepeatedly | lib/client-store.ts:29-64 | any non-empty run of adds for one variant id, starting from the empty cart, gives one line; that line has the first add's display fields and the sum of all added quantities |
| CartItems.TotalPrice | components/cart/cart-item.tsx:24-29 | the left-fold total equals the sum of price × quantity over the lines, and is 0 for an empty cart |
| CartItems.TotalPriceOrderIndependent | components/cart/cart-item.tsx:25-28 | two carts with the same lines in any order have the same total |
| CartItems.Render | components/cart/cart-item.tsx:24-72 | the empty view is shown iff the cart is empty, and the table iff it is not; exactly one of them is shown; the shown total is the sum of the lines; `isPriceIncreased` holds iff that total is strictly above the previous render's total |
| CartItems.UnitDelta | components/cart/cart-item.tsx:107-131 | both buttons pass a copy of the line whose variant has the same id and quantity 1, with the name, image, price and id unchanged |
| CartItems.PlusRaisesQuantityByOne | components/cart/cart-item.tsx:123-131 | pressing + on a line raises that line's quantity by exactly 1 and changes no other line; the total rises by the line's unit price |
| CartItems.PlusShowsPriceIncrease | components/cart/cart-item.tsx:35-40 | after + on a line with a positive price, the price-increase flag is set |
| Payment.PaymentTotal | components/cart/payment.tsx:14-17 | the payment step's total, computed as quantity × price, equals the cart table's total |
| Payment.Render | components/cart/payment.tsx:22-30 | the options always have mode "payment" and currency "usd"; the amount is exactly 100 × the total; the form receives that same total; an empty cart gives total 0 and amount 0 |
| PaymentForm.ToLineItem | components/cart/payment-form.tsx:46-52 | a request entry takes quantity from the variant's quantity, productId from id, title from name, and price and image from the line; it has no variant id |
| PaymentForm.LineItems | components/cart/payment-form.tsx:46-52 | the request list has one entry per cart line, in cart order |
| PaymentForm.BuildRequest | components/cart/payment-form.tsx:43-53 | the request amount is the given total × 100, the currency is "usd", and the lines are the cart mapped field by field |
| PaymentForm.RequestAmountMatchesLines | components/cart/payment-form.tsx:44-52 | with the payment step's total, the request amount is 100 × the total of the line entries it sends |
| PaymentForm.HandleSubmit | components/cart/payment-form.tsx:25-75 | a request is sent iff both clients exist and the elements submit without error; without a client, loading is cleared and the message is kept; a submit error becomes the message and clears loading; confirmation is attempted iff the server answers with `success`, using its secret and user; the confirmation goes to the fixed return url; a confirmation error becomes the message, and every other path that sent the request keeps the message as it was; loading stays set only when the server answer has no `success`; an alert is raised iff the answer carries a non-empty error, and it shows that error |
| CartProgress.Render | components/cart/cart-progress.tsx:15-68 | the width is 0, 50 and 100 percent for the cart, payment and confirmation phases; the cart icon is always shown; the payment icon iff payment or confirmation; the check icon iff confirmation; the number of shown icons is the phase's position + 1 |
| CartProgress.WidthStrictlyIncreases | components/cart/cart-progress.tsx:19-24 | a later phase has a strictly wider bar |
| CartProgress.IconsMonotone | components/cart/cart-progress.tsx:28-68 | an icon shown in one phase is shown in every later phase |
| InputTags.Distinct | app/dashboard/products/input-tags.tsx:26-27 | the `Set` round trip has no duplicates, holds exactly the input's values, is no longer than the input, and returns a duplicate-free list unchanged |
| InputTags.DistinctKeepsFirstOccurrenceOrder | app/dashboard/products/input-tags.tsx:26-27 | the values come out in the order of their first occurrence |
| InputTags.AddPending | app/dashboard/products/input-tags.tsx:24-30 | empty pending text changes nothing; otherwise the pending text is cleared, the result has no duplicates, holds every old tag plus the new one and nothing else, and lists them in order of first occurrence in the old tags followed by the new one; on a duplicate-free list a present tag leaves the list unchanged and an absent one is appended |
| InputTags.RemoveTag | app/dashboard/products/input-tags.tsx:62 | the removed tag is gone; every other tag is present iff it was before, with the same multiplicity |
| InputTags.RemoveTagKeepsOrder | app/dashboard/products/input-tags.tsx:62 | removal distributes over concatenation, so the remaining tags keep their order |
| InputTags.KeyDown | app/dashboard/products/input-tags.tsx:76-95 | Enter adds the pending tag; Backspace with empty text and some tags drops exactly the last tag; for Backspace with text or with no tags, and for other keys, the handler itself changes nothing |
| Products.FilteredVariants | components/products/products.tsx:19-27 | with no tag or an empty tag the variants are returned unchanged; with a tag, every returned variant carries it and every input variant carrying it is returned; the result is never longer than the input |
| Products.FilterKeepsOrder | components/products/products.tsx:22-24 | the filter distributes over concatenation, so the result keeps the input's order |
| VariantImages.BeforeUploadBegin | app/dashboard/products/variant-images.tsx:67-77 | the existing images are untouched; one entry per file is appended in file order, whose url is that file's preview url (which begins with "blob:"), with that file's size and name and no key or id; the hook returns the files unchanged |
| VariantImages.FindByName | app/dashboard/products/variant-images.tsx:82-84 | the lookup fails iff no uploaded file has the name; otherwise it returns the first file with that name |
| VariantImages.ClientUploadComplete | app/dashboard/products/variant-images.tsx:78-96 | the length is unchanged; an image whose url does not start with "blob:" is untouched; a "blob:" image takes url, name, size and key from the first same-named uploaded file and loses any id, and stays as it is when there is none |
| VariantImages.UploadCompleteMakesImagesReady | app/dashboard/products/variant-images.tsx:80-94 | once every preview has a same-named uploaded file with a non-blob url, the list passes the schema's url rule |
| VariantImages.PlaceholdersBlockSubmit | types/variant-schema.ts:15-17 | right after files are dropped, the image list fails the schema's url rule |
| VariantImages.Remove | app/dashboard/products/variant-images.tsx:163 | the trash action removes exactly the entry at its index; the entries before it and after it keep their order |
| Common.Search | types/variant-schema.ts:15 | `s.search(p)` for a literal pattern is -1 exactly when `p` occurs nowhere in `s`, and otherwise is an index where `p` occurs with no occurrence before it |
| Seqs.Reduce | components/cart/cart-item.tsx:25-28 | `reduce((acc, x) => acc + f(x), acc)` folds from the left and equals `acc` plus the reference sum of `f` over the sequence |
| Seqs.Filter | components/products/products.tsx:22-24 | `filter(p)` is no longer than its input, keeps only elements of the input that satisfy `p`, and keeps every element that does; with `Seqs.FilterConcat` it keeps their order |
| Seqs.FilterConcat | components/products/products.tsx:22-24 | filtering a concatenation is the concatenation of the filtered parts, so `filter` keeps the input's order |
| Common.SearchZeroIffStartsWith | app/dashboard/products/variant-images.tsx:81 | `search(p) === 0` holds exactly when the string starts with `p` |
| VariantSchema.ImageIssues | types/variant-schema.ts:13-23 | the url refine reports nothing iff no image url starts with "blob:", and every issue it reports carries the upload message |
| VariantSchema.Issues | types/variant-schema.ts:2-24 | a form is accepted iff product type and colour have at least 3 characters and no image url starts with "blob:"; every issue carries one of the three messages |
| VariantSchema.UrlAcceptedIffNoBlobPrefix | types/variant-schema.ts:15 | for every url, the refine accepts it exactly when it does not begin with "blob:", so where else "blob:" occurs does not matter |
| VariantSchema.BlobElsewherePasses | types/variant-schema.ts:15 | an instance of the rule above: the url "https://utfs.io/f/blob:1" contains "blob:" at index 18 and still passes the refine |
| VariantSchema.EmptyTagsAccepted | types/variant-schema.ts:12 | as written, a form with no tags is accepted |
| VariantSchema.IntendedIssues | types/variant-schema.ts:12 | with the intended tag minimum, a form is accepted iff the written rules hold and there is at least one tag |
| VariantSchema.IntendedRejectsOnlyMore | types/variant-schema.ts:12 | the intended schema accepts exactly the forms the written one accepts that have a tag, and reports the tags message for an empty list |
| SettingsSchema.Issues | types/settings-schema.ts:3-18 | settings are accepted iff any email passes the email test, any password and any new password have at least 8 characters, and the two password fields are equal (both absent, or both present and equal); unequal fields always report the refine message |
| SettingsSchema.OneSidedPasswordRejected | types/settings-schema.ts:12-17 | giving exactly one of the two password fields is rejected |
| SettingsSchema.NameAndImageUnconstrained | types/settings-schema.ts:5-6 | name and image never affect the verdict |
| SettingsSchema.PasswordStep | server/actions/settings.ts:38-86 | for an OAuth session the column is left alone; otherwise, with both password fields and a stored hash non-empty, a current password that does not match the hash is rejected with "Current password does not match", a new password that matches it is rejected with "New password is the same as the old password", and in the remaining case the column gets the hash of the new password; without all three, a present current password is written to the column as it is and an absent one leaves the column alone; conversely each outcome pins the case it comes from |
| SettingsSchema.ClearForOAuth | server/actions/settings.ts:38-44 | an OAuth session loses the email and both password fields; line 43 clears `isTwoFactorEnabled`, a key the parsed values never carry, so the schema's `isTwoFactorEnable` is kept, as are name and image; any other session is unchanged |
| SettingsSchema.TwoFactorChoiceIgnored | server/actions/settings.ts:80 | for any accepted settings that carry a two-factor choice, the value handed to the `twoFactorEnabled` column differs from that choice: the action reads `values.isTwoFactorEnabled`, which the parsed values never carry, so the column is always left as it is |
| SettingsSchema.IntendedTwoFactorWrite | server/actions/settings.ts:38-80 | the corrected write hands the column the schema's two-factor flag for a session that is not OAuth, and nothing for an OAuth session; whenever a flag is given without OAuth it differs from the write as the action does it |
| SettingsSchema.PasswordChangeImpossible | types/settings-schema.ts:12-17 | for any settings the schema accepts, the action never hashes a new password; with a non-empty stored hash and no OAuth session, a request carrying a password is always rejected |
| SettingsSchema.PlainTextPasswordWritten | server/actions/settings.ts:48-83 | a password-only request "abcdefgh"/"abcdefgh" passes the schema, and for a user with no stored hash or an empty one the action writes "abcdefgh" into the password column unhashed |
| SettingsSchema.IntendedPasswordStep | server/actions/settings.ts:38-86 | the corrected password effect never writes an unhashed value; it hashes a new password only after the current one matches the stored hash and the new one does not; it agrees with the action as written except where that one writes plain text, and there it leaves the column alone |
| SettingsSchema.DistinctPasswordsRejected | types/settings-schema.ts:12-17 | a request with a current and a different new password is rejected by the schema |
| SettingsSchema.IntendedIssues | types/settings-schema.ts:12-17 | with the intended refine, settings are accepted iff the field rules hold and a current password comes with a new one |
| SettingsSchema.IntendedAllowsPasswordChange | server/actions/settings.ts:48-74 | for every settings value the intended schema accepts that carries a current password, and every non-empty stored hash that the current password matches and the new one does not, a session that is not OAuth gets the new password hashed, both by the action as written and by the corrected step |
| SettingsSchema.IntendedAcceptsDistinctPasswords | types/settings-schema.ts:12-17 | the request "oldpass12" to "newpass34", which the schema as written rejects, passes the intended schema, and the corrected step hashes the new password against the hash of "oldpass12" |
| RegisterSchema.Issues | types/register-schema.ts:3-11 | registration is accepted iff email, password and name are all present, the email passes the email test, the password has at least 8 characters and the name at least 4; a missing field reports "Required" |
| RegisterSchema.LengthBoundaries | types/register-schema.ts:7-10 | a password of 8 characters and a name of 4 are accepted; 7 and 3 characters are rejected |
| Dates.CheckDate | app/dashboard/analytics/check-date.ts:3-25 | holds iff the date's calendar day is today's calendar day minus `daysAgo` |
| Dates.TimeOfDayIrrelevant | app/dashboard/analytics/check-date.ts:5-24 | only the calendar days of the date and of now matter, not their times of day |
| Dates.ZeroDaysAgoIsToday | app/dashboard/analytics/check-date.ts:15-24 | `checkDate(d, 0)` holds iff d falls on today's calendar date |
| Dates.AtMostOneDaysAgo | app/dashboard/analytics/check-date.ts:15-24 | for a fixed date, at most one `daysAgo` makes the check true |
| Dates.NegativeDaysAgoIsFuture | app/dashboard/analytics/check-date.ts:15 | a negative `daysAgo` matches only days after today |
| MonthlyChart.BucketRevenue | app/dashboard/analytics/monthly-chart.ts:7-9 | the filtered left-fold sum equals the revenue of the items exactly `daysAgo` days old |
| MonthlyChart.WeeklyChart | app/dashboard/analytics/monthly-chart.ts:3-36 | always exactly five buckets, labelled "4 weeks ago" to "this week" in order, holding the revenue of the items 6, 5, 4, 3 and 2 days old |
| MonthlyChart.WeeklyChartTotal | app/dashboard/analytics/monthly-chart.ts:4-35 | the five buckets together hold the revenue of the items 2 to 6 days old |
| MonthlyChart.EmptyChart | app/dashboard/analytics/monthly-chart.ts:9 | no items give 0 revenue in every bucket |
| MonthlyChart.OutsideWindowIgnored | app/dashboard/analytics/monthly-chart.ts:8-32 | an item 0 or 1 days old, older than 6 days, or in the future changes no bucket |
| MonthlyChart.AtMostOneBucket | app/dashboard/analytics/monthly-chart.ts:8-32 | an item contributes to at most one bucket |
| ReviewAverage.GetReviewAverage | lib/review-average.ts:1-3 | an empty list gives NaN (0 / 0); otherwise the result times the count equals the sum of the ratings |
| ReviewAverage.SingleReview | lib/review-average.ts:2 | a single rating averages to itself |
| ReviewAverage.AverageWithinBounds | lib/review-average.ts:2 | the average lies between any lower and upper bound of the ratings |
| ReviewAverage.UniformReviews | lib/review-average.ts:2 | identical ratings average to that rating |
| ReviewAverage.OrderIndependent | lib/review-average.ts:2 | the average does not depend on the order of the ratings |

## Left out

- `removeFromCart`, `clearCart`, `setCheckoutProgress`, `cartOpen` and persistence are called by the components but not defined in `lib/client-store.ts`. Their semantics are not modelled.
- InputTags.KeyDown: only the handler is modelled; the browser's own editing of the text field (a Backspace deleting a character of the pending text through `onChange`) is not.
- CartProgress.Render: the phase is a three-valued datatype. The source compares strings, so an unknown tag would give a full bar and hide the cart icon; that case is not modelled.
- Numbers are exact reals and integers. JavaScript's double rounding is not modelled: `totalPrice * 100` is not rounded to whole cents, and `toFixed`, the MB size display and currency formatting are left out.
- PaymentForm.HandleSubmit: the collaborators' answers are inputs. The interleaving of the awaited calls, `preventDefault`, the intermediate `setIsLoading(true)`, console output and the confirmation's redirect are not modelled.
- Dates.CheckDate: a date is a local day number. Comparing date, month and year is taken to be comparing day numbers, a bijection between local days and calendar triples. Time zones and daylight-saving shifts are not modelled. `daysAgo` is an integer; fractional day counts are not modelled.
- VariantImages.Remove requires an index inside the list. The trash button of row `index` always supplies one.
- `crypto.randomUUID` keys, `URL.createObjectURL` and `new Date()` are replaced by parameters: `blobUrls` and `now`.
- The email-format regular expression is the abstract predicate `isEmail`. `bcrypt.compare` is the abstract relation `matches`.
- VariantSchema.Issues: lengths count Dafny characters, while zod counts UTF-16 code units. zod's type checks are covered by the field types and are not issues. Only `RegisterInput` models missing fields.
- SettingsSchema.Issues: lengths count Dafny characters rather than UTF-16 code units.
- RegisterSchema.Issues: lengths count Dafny characters rather than UTF-16 code units.
- The drag-to-reorder of variant images is left out, along with the upload error handler. They depend on the animation library's `Reorder` and react-hook-form's `move` and `setError`, which are not part of this model.
- The earnings page imports a `monthlyChart` that the chart file does not export. Only `weeklyChart` is modelled.
- Server actions, the ORM schema, authentication, email and search are not part of this model. The exception is the settings action's effect on the password column (server/actions/settings.ts:38-86), which both settings findings need.
- SettingsSchema.PasswordStep: the "User not found" answers for a missing session or database row, the writes of the other columns, `revalidatePath` and the success answer are not modelled; `bcrypt.hash` and `bcrypt.compare` are abstract, so an outcome records the password to be hashed rather than the hash itself.
- Rendering, animation, focus handling and styling are left out.

## Findings

| source | as written | input that shows it | evidently intended | confidence | as-written member | corrected member |
|---|---|---|---|---|---|---|
| types/settings-schema.ts:12-17 | the refine rejects unless `password === newPassword`, and the settings action (server/actions/settings.ts:48-67) then rejects a new password that matches the stored hash after requiring the current one to match it | password "oldpass12", newPassword "newpass34": rejected with "Password must be same!"; any accepted pair is equal, so against a stored hash the action answers "Current password does not match" when the pair does not match the hash and "New password is the same as the old password" when it does | reject a current password given without a new one | medium, not executed | SettingsSchema.PasswordChangeImpossible | SettingsSchema.IntendedAllowsPasswordChange |
| server/actions/settings.ts:48-83 | when the password step is skipped because the stored hash is missing or empty, `values.password` still holds the form's current password and `.set({ password: values.password })` writes it to the column unhashed | latent: it needs a session that is not OAuth for a user row with no password; server/auth.ts signs such users in through neither of its paths (the credentials provider refuses a user without a password, and any user with a linked account is OAuth), so with the sign-in code as it stands no request reaches it. Were one to, password and newPassword "abcdefgh" would pass the schema and the column would become "abcdefgh" in plain text | write the password column only with a bcrypt hash of a verified new password | low, not executed | SettingsSchema.PlainTextPasswordWritten | SettingsSchema.IntendedPasswordStep |
| types/variant-schema.ts:12 | `z.array(z.string(), { message: "Please provide at least 1 tag!" })` has no minimum, so an empty tag list passes | a form with product type "Hoodie", colour "Red", no tags and no images has no issues | `.min(1)` on the tag array | medium, not executed | VariantSchema.EmptyTagsAccepted | VariantSchema.IntendedIssues |
| server/actions/settings.ts:80 | the update writes `values.isTwoFactorEnabled`, but the schema's key is `isTwoFactorEnable` (types/settings-schema.ts:7) and zod drops unknown keys, so the value is always `undefined` and the column is never written | a user signed in with credentials turns two-factor authentication on: the settings are accepted and the `twoFactorEnabled` column keeps its old value | the schema's flag reaches the column for sessions that are not OAuth; the form field at components/dashboard/settings/settingCard.tsx:235 is named `isTwoFactorEnabled` too, so it would also need the schema's key | medium, not executed | SettingsSchema.TwoFactorChoiceIgnored | SettingsSchema.IntendedTwoFactorWrite |

=== FILE: cart_items.dfy ===
/** The cart table: its total, the empty/table switch, the price-increase flag
    and the +/- buttons, which send a one-unit copy of a line to the store. */
module CartItems {
  import opened Seqs
  import opened ClientStore

  /** Price of one line: unit price times quantity. */
  function LineTotal(line: CartItem): real
  {
    line.price * line.variant.quantity as real
  }

  /** `cart.reduce((acc, item) => acc + item.price * item.variant.quantity, 0)`. */
  function TotalPrice(cart: Cart): (r: real)
    ensures r == Sum(cart, LineTotal)
    ensures |cart| == 0 ==> r == 0.0
  {
    Reduce(cart, 0.0, LineTotal)
  }

  /** The total does not depend on the order of the lines. */
  lemma TotalPriceOrderIndependent(a: Cart, b: Cart)
    requires multiset(a) == multiset(b)
    ensures TotalPrice(a) == TotalPrice(b)
  {
    SumPermutation(a, b, LineTotal);
  }

  /** What the cart table renders for a cart, given the total of the previous render. */
  datatype CartView = CartView(showEmpty: bool, showTable: bool, total: real, priceIncreased: bool)

  function Render(cart: Cart, previousTotal: real): (v: CartView)
    ensures v.showEmpty <==> |cart| == 0
    ensures v.showTable <==> |cart| > 0
    ensures v.showEmpty != v.showTable
    ensures v.total == Sum(cart, LineTotal)
    ensures v.priceIncreased <==> Sum(cart, LineTotal) > previousTotal
  {
    var total := TotalPrice(cart);
    CartView(|cart| == 0, |cart| > 0, total, total > previousTotal)
  }

  /** The line both the minus and the plus button pass to the store: the same
      line, with a variant of the same id and quantity 1. */
  function UnitDelta(line: CartItem): (d: CartItem)
    ensures d.variant == Variant(line.variant.variantId, 1)
    ensures SameDisplay(d, line)
  {
    line.(variant := Variant(line.variant.variantId, 1))
  }

  /** Pressing + on line `i` of a cart with one line per variant raises that
      line's quantity by one, leaves every other line as it was, and raises the
      total by the line's unit price. */
  lemma PlusRaisesQuantityByOne(cart: Cart, i: nat)
    requires UniqueVariants(cart) && i < |cart|
    ensures AddToCart(cart, UnitDelta(cart[i])) ==
      cart[i := cart[i].(variant := cart[i].variant.(quantity := cart[i].variant.quantity + 1))]
    ensures TotalPrice(AddToCart(cart, UnitDelta(cart[i]))) == TotalPrice(cart) + cart[i].price
  {
    var d := UnitDelta(cart[i]);
    var r := AddToCart(cart, d);
    var line' := cart[i].(variant := cart[i].variant.(quantity := cart[i].variant.quantity + 1));
    assert HasVariant(cart, d.variant.variantId);
    assert |r| == |cart|;
    forall j | 0 <= j < |cart|
      ensures r[j] == cart[i := line'][j]
    {
      if j != i {
        assert cart[j].variant.variantId != cart[i].variant.variantId;
      }
    }
    assert r == cart[i := line'];
    SumUpdate(cart, i, line', LineTotal);
  }

  /** After + on a line with a positive price, the table animates an increase. */
  lemma PlusShowsPriceIncrease(cart: Cart, i: nat)
    requires UniqueVariants(cart) && i < |cart| && cart[i].price > 0.0
    ensures Render(AddToCart(cart, UnitDelta(cart[i])), TotalPrice(cart)).priceIncreased
  {
    PlusRaisesQuantityByOne(cart, i);
  }
}

=== FILE: cart_progress.dfy ===
/** The checkout progress bar: how far the bar is filled and which of the three
    step icons are shown, for each checkout phase. */
module CartProgress {

  datatype Phase = CartPage | PaymentPage | ConfirmationPage

  /** Position of a phase along the checkout flow. */
  function Step(p: Phase): nat
  {
    match p
    case CartPage => 0
    case PaymentPage => 1
    case ConfirmationPage => 2
  }

  /** The bar's width in percent and the scale (0 hidden, 1 shown) of the cart,
      payment and check icons. */
  datatype ProgressView = ProgressView(widthPercent: nat, cartIcon: nat, paymentIcon: nat, checkIcon: nat)

  function VisibleIcons(v: ProgressView): nat
  {
    v.cartIcon + v.paymentIcon + v.checkIcon
  }

  function Render(p: Phase): (v: ProgressView)
    ensures v.widthPercent == 50 * Step(p)
    ensures v.cartIcon == 1
    ensures v.paymentIcon == 1 <==> p == PaymentPage || p == ConfirmationPage
    ensures v.checkIcon == 1 <==> p == ConfirmationPage
    ensures v.paymentIcon <= 1 && v.checkIcon <= 1
    ensures VisibleIcons(v) == Step(p) + 1
  {
    var width := if p == CartPage then 0 else if p == PaymentPage then 50 else 100;
    var cart := if p == CartPage || p == PaymentPage || p == ConfirmationPage then 1 else 0;
    var payment := if p == PaymentPage || p == ConfirmationPage then 1 else 0;
    var check := if p == ConfirmationPage then 1 else 0;
    ProgressView(width, cart, payment, check)
  }

  /** The bar grows strictly along cart -> payment -> confirmation. */
  lemma WidthStrictlyIncreases(p: Phase, q: Phase)
    requires Step(p) < Step(q)
    ensures Render(p).widthPercent < Render(q).widthPercent
  {
  }

  /** An icon shown at one phase stays shown at every later phase. */
  lemma IconsMonotone(p: Phase, q: Phase)
    requires Step(p) <= Step(q)
    ensures Render(p).cartIcon <= Render(q).cartIcon
    ensures Render(p).paymentIcon <= Render(q).paymentIcon
    ensures Render(p).checkIcon <= Render(q).checkIcon
  {
  }
}

=== FILE: check_date.dfy ===
/** `checkDate(dateToCheck, daysAgo)`: does a date fall on the calendar day
    `daysAgo` days before today? The clock is a parameter (`now`). */
module Dates {

  /** A moment in local time: the number of its calendar day (consecutive days
      have consecutive numbers) and the milliseconds since local midnight. */
  datatype Instant = Instant(day: int, msOfDay: nat)

  /** `d.setHours(0, 0, 0, 0)`. */
  function StartOfDay(t: Instant): Instant
  {
    Instant(t.day, 0)
  }

  /** `d.setDate(d.getDate() + n)`: the same local time, `n` days later. */
  function AddDays(t: Instant, n: int): Instant
  {
    Instant(t.day + n, t.msOfDay)
  }

  /** Equal `getDate()`, `getMonth()` and `getFullYear()`: the same calendar day. */
  predicate SameCalendarDate(a: Instant, b: Instant)
  {
    a.day == b.day
  }

  function CheckDate(dateToCheck: Instant, daysAgo: int, now: Instant): (r: bool)
    ensures r <==> dateToCheck.day + daysAgo == now.day
  {
    var today := StartOfDay(now);
    var target := AddDays(today, -daysAgo);
    SameCalendarDate(dateToCheck, target)
  }

  /** Only the calendar day of either date matters, not the time of day. */
  lemma TimeOfDayIrrelevant(a: Instant, b: Instant, daysAgo: int, now: Instant, now': Instant)
    requires a.day == b.day && now.day == now'.day
    ensures CheckDate(a, daysAgo, now) == CheckDate(b, daysAgo, now')
  {
  }

  /** `checkDate(d, 0)` holds exactly for dates falling today. */
  lemma ZeroDaysAgoIsToday(d: Instant, now: Instant)
    ensures CheckDate(d, 0, now) <==> SameCalendarDate(d, now)
  {
  }

  /** A date is some fixed number of days ago: at most one `daysAgo` matches it. */
  lemma AtMostOneDaysAgo(d: Instant, k1: int, k2: int, now: Instant)
    requires CheckDate(d, k1, now) && CheckDate(d, k2, now)
    ensures k1 == k2
  {
  }

  /** A negative `daysAgo` matches only dates after today. */
  lemma NegativeDaysAgoIsFuture(d: Instant, daysAgo: int, now: Instant)
    requires daysAgo < 0 && CheckDate(d, daysAgo, now)
    ensures d.day > now.day
  {
  }
}

=== FILE: client_store.dfy ===
/** The client-side cart store: line items keyed on their variant id, and the
    merge-or-append behaviour of `addToCart`. */
module ClientStore {
  import opened Common

  /** The purchasable variant a line refers to, and how many of it are in the cart. */
  datatype Variant = Variant(variantId: int, quantity: int)

  /** One line of the cart. */
  datatype CartItem = CartItem(name: string, image: string, id: int, variant: Variant, price: real)

  type Cart = seq<CartItem>

  /** The store's initial state. */
  const InitialCart: Cart := []

  /** The store starts with an empty cart, which trivially has one line per variant. */
  lemma InitialCartEmpty()
    ensures |InitialCart| == 0 && UniqueVariants(InitialCart) && TotalQuantity(InitialCart) == 0
  {
  }

  /** At most one line per variant id. */
  predicate UniqueVariants(cart: Cart)
  {
    forall i, j :: 0 <= i < j < |cart| ==> cart[i].variant.variantId != cart[j].variant.variantId
  }

  /** Some line of the cart carries variant id `vid`. */
  predicate HasVariant(cart: Cart, vid: int)
  {
    exists i :: 0 <= i < |cart| && cart[i].variant.variantId == vid
  }

  /** `cart.find(c => c.variant.variantId === vid)`: the first line with that variant id. */
  function Find(cart: Cart, vid: int): (r: Option<CartItem>)
    ensures r.Some? <==> HasVariant(cart, vid)
    ensures r.Some? ==> r.value in cart && r.value.variant.variantId == vid
  {
    if |cart| == 0 then None
    else if cart[0].variant.variantId == vid then Some(cart[0])
    else
      var r := Find(cart[1..], vid);
      assert HasVariant(cart[1..], vid) ==> HasVariant(cart, vid);
      assert HasVariant(cart, vid) ==> HasVariant(cart[1..], vid) by {
        if HasVariant(cart, vid) {
          var i :| 0 <= i < |cart| && cart[i].variant.variantId == vid;
          assert cart[1..][i - 1] == cart[i];
        }
      }
      r
  }

  /** Two lines agree on everything shown to the shopper and on the product id. */
  predicate SameDisplay(a: CartItem, b: CartItem)
  {
    a.name == b.name && a.image == b.image && a.price == b.price && a.id == b.id
  }

  /** The existing line with its quantity raised by the incoming line's quantity;
      every other field stays as the existing line has it. */
  function Merge(line: CartItem, incoming: CartItem): CartItem
  {
    line.(variant := line.variant.(quantity := line.variant.quantity + incoming.variant.quantity))
  }

  /** `addToCart(item)`: merge into the line with the same variant id, or append. */
  function AddToCart(cart: Cart, item: CartItem): (r: Cart)
    // a present variant: same length, quantities of matching lines raised, nothing else changes
    ensures HasVariant(cart, item.variant.variantId) ==>
      |r| == |cart| &&
      forall i :: 0 <= i < |cart| ==>
        SameDisplay(r[i], cart[i]) &&
        r[i].variant.variantId == cart[i].variant.variantId &&
        r[i].variant.quantity ==
          cart[i].variant.quantity + (if cart[i].variant.variantId == item.variant.variantId then item.variant.quantity else 0)
    // an absent variant: the incoming line goes at the end, as given
    ensures !HasVariant(cart, item.variant.variantId) ==>
      |r| == |cart| + 1 && r[..|cart|] == cart && r[|cart|] == item
    ensures HasVariant(r, item.variant.variantId)
    ensures UniqueVariants(cart) ==> UniqueVariants(r)
  {
    match Find(cart, item.variant.variantId)
    case Some(_) =>
      var r := seq(|cart|, i requires 0 <= i < |cart| =>
        if cart[i].variant.variantId == item.variant.variantId then Merge(cart[i], item) else cart[i]);
      assert forall i :: 0 <= i < |cart| ==> r[i].variant.variantId == cart[i].variant.variantId;
      r
    case None =>
      // `{...item, variant: {...item.variant, quantity: item.variant.quantity}}` is `item` itself
      var r := cart + [item];
      assert r[|cart|].variant.variantId == item.variant.variantId;
      r
  }

  /** Number of items in the cart, counting quantities. */
  function TotalQuantity(cart: Cart): int
  {
    if |cart| == 0 then 0 else cart[0].variant.quantity + TotalQuantity(cart[1..])
  }

  lemma {:induction false} TotalQuantityConcat(a: Cart, b: Cart)
    ensures TotalQuantity(a + b) == TotalQuantity(a) + TotalQuantity(b)
  {
    if |a| == 0 {
      assert a + b == b;
    } else {
      assert (a + b)[1..] == a[1..] + b;
      TotalQuantityConcat(a[1..], b);
    }
  }

  /** Number of lines carrying variant id `vid`. */
  function CountVariant(cart: Cart, vid: int): nat
  {
    if |cart| == 0 then 0
    else (if cart[0].variant.variantId == vid then 1 else 0) + CountVariant(cart[1..], vid)
  }

  lemma {:induction false} UniqueCountsOnce(cart: Cart, vid: int)
    requires UniqueVariants(cart) && HasVariant(cart, vid)
    ensures CountVariant(cart, vid) == 1
  {
    if cart[0].variant.variantId == vid {
      AbsentCountsZero(cart[1..], vid);
    } else {
      var i :| 0 <= i < |cart| && cart[i].variant.variantId == vid;
      assert cart[1..][i - 1] == cart[i];
      UniqueCountsOnce(cart[1..], vid);
    }
  }

  lemma {:induction false} AbsentCountsZero(cart: Cart, vid: int)
    requires !HasVariant(cart, vid)
    ensures CountVariant(cart, vid) == 0
  {
    if |cart| > 0 {
      assert cart[0].variant.variantId != vid;
      assert forall i :: 0 <= i < |cart| - 1 ==> cart[1..][i] == cart[i + 1];
      AbsentCountsZero(cart[1..], vid);
    }
  }

  /** Merging adds the incoming quantity once for every line with the variant id. */
  lemma {:induction false} MergeQuantityGrowth(cart: Cart, merged: Cart, item: CartItem)
    requires |merged| == |cart|
    requires forall i :: 0 <= i < |cart| ==>
      merged[i].variant.quantity ==
        cart[i].variant.quantity + (if cart[i].variant.variantId == item.variant.variantId then item.variant.quantity else 0)
    ensures TotalQuantity(merged) ==
      TotalQuantity(cart) + CountVariant(cart, item.variant.variantId) * item.variant.quantity
  {
    if |cart| > 0 {
      MergeQuantityGrowth(cart[1..], merged[1..], item);
    }
  }

  /** On a cart with one line per variant, `addToCart` raises the total
      quantity by exactly the incoming quantity. */
  lemma AddToCartTotalQuantity(cart: Cart, item: CartItem)
    requires UniqueVariants(cart)
    ensures TotalQuantity(AddToCart(cart, item)) == TotalQuantity(cart) + item.variant.quantity
  {
    var r := AddToCart(cart, item);
    if HasVariant(cart, item.variant.variantId) {
      MergeQuantityGrowth(cart, r, item);
      UniqueCountsOnce(cart, item.variant.variantId);
    } else {
      assert r == cart + [item];
      TotalQuantityConcat(cart, [item]);
    }
  }

  /** Adding the lines of `items` one after another. */
  function AddAll(cart: Cart, items: seq<CartItem>): Cart
    decreases |items|
  {
    if |items| == 0 then cart
    else AddToCart(AddAll(cart, items[..|items| - 1]), items[|items| - 1])
  }

  /** Adding any non-empty run of lines for one variant to the empty cart gives a
      single line, carrying the first line's display fields and the sum of all
      the added quantities. */
  lemma {:induction false} AddSameVariantRepeatedly(items: seq<CartItem>, vid: int)
    requires |items| > 0
    requires forall k :: 0 <= k < |items| ==> items[k].variant.variantId == vid
    ensures |AddAll(InitialCart, items)| == 1
    ensures SameDisplay(AddAll(InitialCart, items)[0], items[0])
    ensures AddAll(InitialCart, items)[0].variant.variantId == vid
    ensures AddAll(InitialCart, items)[0].variant.quantity == TotalQuantity(items)
  {
    var n := |items|;
    var front := items[..n - 1];
    var last := items[n - 1];
    var c := AddAll(InitialCart, front);
    assert AddAll(InitialCart, items) == AddToCart(c, last);
    assert items == front + [last];
    TotalQuantityConcat(front, [last]);
    assert TotalQuantity([last]) == last.variant.quantity;
    if n == 1 {
      assert c == [];
      AddToEmpty(last);
    } else {
      AddSameVariantRepeatedly(front, vid);
      AddToSingleLine(c, last);
      assert front[0] == items[0];
    }
  }

  /** The first line added to the empty cart is appended as given. */
  lemma AddToEmpty(item: CartItem)
    ensures AddToCart(InitialCart, item) == [item]
  {
    assert !HasVariant(InitialCart, item.variant.variantId);
  }

  /** Adding a line for the variant of a one-line cart merges into that line. */
  lemma AddToSingleLine(c: Cart, item: CartItem)
    requires |c| == 1 && c[0].variant.variantId == item.variant.variantId
    ensures |AddToCart(c, item)| == 1
    ensures SameDisplay(AddToCart(c, item)[0], c[0])
    ensures AddToCart(c, item)[0].variant == Variant(c[0].variant.variantId, c[0].variant.quantity + item.variant.quantity)
  {
    assert HasVariant(c, item.variant.variantId);
  }
}

=== FILE: common.dfy ===
/** Small shared vocabulary: optional values, validation issues with zod's
    minimum-length rule, and the two string tests the storefront uses
    (`String.prototype.search` with a literal pattern, and "starts with"). */
module Common {

  /** A value that may be absent (`undefined` / `null` in the source). */
  datatype Option<+T> = None | Some(value: T)

  /** One step of the path to a rejected field: an object key or an array index. */
  datatype PathPart = Key(name: string) | Index(i: nat)

  /** One validation failure, as a schema reports it: where, and the message. */
  datatype Issue = Issue(path: seq<PathPart>, message: string)

  /** `z.string().min(n, { message })` on the field named `field`. */
  function MinLength(field: string, s: string, n: nat, message: string): (r: seq<Issue>)
    ensures r == [] <==> |s| >= n
    ensures forall k :: 0 <= k < |r| ==> r[k] == Issue([Key(field)], message)
  {
    if |s| < n then [Issue([Key(field)], message)] else []
  }

  /** `p` occurs in `s` starting at index `j`. */
  predicate OccursAt(s: string, p: string, j: int)
  {
    0 <= j && j + |p| <= |s| && s[j..j + |p|] == p
  }

  /** `s` begins with `p`. */
  predicate StartsWith(s: string, p: string)
  {
    |p| <= |s| && s[..|p|] == p
  }

  /** First index at or after `i` where `p` occurs in `s`, or -1. */
  function IndexOfFrom(s: string, p: string, i: nat): (r: int)
    requires i <= |s|
    ensures r == -1 || (i <= r && OccursAt(s, p, r))
    ensures r == -1 ==> forall j :: i <= j ==> !OccursAt(s, p, j)
    ensures r != -1 ==> forall j :: i <= j < r ==> !OccursAt(s, p, j)
    decreases |s| - i
  {
    if i + |p| > |s| then -1
    else if s[i..i + |p|] == p then i
    else IndexOfFrom(s, p, i + 1)
  }

  /** `s.search(p)` for a pattern without regular-expression metacharacters:
      the index of the first occurrence of `p`, or -1 when there is none. */
  function Search(s: string, p: string): (r: int)
    ensures r == -1 <==> forall j :: !OccursAt(s, p, j)
    ensures r != -1 ==> OccursAt(s, p, r) && forall j :: 0 <= j < r ==> !OccursAt(s, p, j)
  {
    IndexOfFrom(s, p, 0)
  }

  /** The source's `url.search("blob:") === 0` test is exactly "starts with". */
  lemma SearchZeroIffStartsWith(s: string, p: string)
    ensures Search(s, p) == 0 <==> StartsWith(s, p)
  {
    if StartsWith(s, p) {
      assert OccursAt(s, p, 0);
    }
  }
}

=== FILE: input_tags.dfy ===
/** The tag editor of the product-variant form: Enter adds the pending text as a
    tag (through a `Set`, so without duplicates), a badge's X removes its tag,
    and Backspace on an empty input drops the last tag. */
module InputTags {
  import opened Seqs

  type Tags = seq<string>

  /** The editor's state: the form's tag list and the text being typed. */
  datatype TagInput = TagInput(tags: Tags, pending: string)

  predicate NoDuplicates(s: Tags)
  {
    forall i, j :: 0 <= i < j < |s| ==> s[i] != s[j]
  }

  /** `Array.from(new Set(s))`: each value once, in order of first insertion. */
  function Distinct(s: Tags): (r: Tags)
    ensures NoDuplicates(r)
    ensures forall x :: x in r <==> x in s
    ensures |r| <= |s|
    ensures NoDuplicates(s) ==> r == s
    decreases |s|
  {
    if |s| == 0 then []
    else
      var front := s[..|s| - 1];
      var d := Distinct(front);
      var x := s[|s| - 1];
      assert s == front + [x];
      assert NoDuplicates(s) ==> NoDuplicates(front) && x !in front;
      if x in d then d else d + [x]
  }

  /** Index of the first occurrence of `x` in `s`. */
  function FirstIndex(s: Tags, x: string): (k: nat)
    requires x in s
    ensures k < |s| && s[k] == x
    ensures forall j :: 0 <= j < k ==> s[j] != x
  {
    if s[0] == x then 0 else 1 + FirstIndex(s[1..], x)
  }

  lemma FirstIndexInFront(s: Tags, x: string)
    requires |s| > 0 && x in s[..|s| - 1]
    ensures FirstIndex(s, x) == FirstIndex(s[..|s| - 1], x)
  {
    var k := FirstIndex(s[..|s| - 1], x);
    assert s[k] == x;
  }

  /** The de-duplicated list lists values in the order they first occur. */
  lemma {:induction false} DistinctKeepsFirstOccurrenceOrder(s: Tags)
    ensures forall i, j :: 0 <= i < j < |Distinct(s)| ==>
      FirstIndex(s, Distinct(s)[i]) < FirstIndex(s, Distinct(s)[j])
  {
    if |s| > 0 {
      var front := s[..|s| - 1];
      var x := s[|s| - 1];
      var d := Distinct(front);
      DistinctKeepsFirstOccurrenceOrder(front);
      forall y | y in d
        ensures FirstIndex(s, y) == FirstIndex(front, y) && FirstIndex(front, y) < |s| - 1
      {
        FirstIndexInFront(s, y);
      }
      if x !in d {
        assert Distinct(s) == d + [x];
        assert FirstIndex(s, x) == |s| - 1;
        forall i, j | 0 <= i < j < |Distinct(s)|
          ensures FirstIndex(s, Distinct(s)[i]) < FirstIndex(s, Distinct(s)[j])
        {
          assert Distinct(s)[i] == d[i];
          if j < |d| {
            assert Distinct(s)[j] == d[j];
          }
        }
      }
    }
  }

  /** `addPendingDataPoint`. */
  function AddPending(s: TagInput): (r: TagInput)
    ensures s.pending == "" ==> r == s
    ensures s.pending != "" ==>
      r.pending == "" && NoDuplicates(r.tags) && s.pending in r.tags &&
      (forall t :: t in s.tags ==> t in r.tags) &&
      (forall t :: t in r.tags ==> t in s.tags || t == s.pending)
    // on a duplicate-free list: unchanged when the tag is present, appended otherwise
    ensures s.pending != "" && NoDuplicates(s.tags) ==>
      r.tags == (if s.pending in s.tags then s.tags else s.tags + [s.pending])
    // in general the tags come out in order of their first occurrence in the old list
    // followed by the new text
    ensures s.pending != "" ==>
      forall i, j :: 0 <= i < j < |r.tags| ==>
        r.tags[i] in s.tags + [s.pending] && r.tags[j] in s.tags + [s.pending] &&
        FirstIndex(s.tags + [s.pending], r.tags[i]) < FirstIndex(s.tags + [s.pending], r.tags[j])
  {
    if s.pending != "" then
      var all := s.tags + [s.pending];
      assert all[..|all| - 1] == s.tags;
      DistinctKeepsFirstOccurrenceOrder(all);
      TagInput(Distinct(all), "")
    else s
  }

  function IsNot(tag: string): string -> bool
  {
    t => t != tag
  }

  /** `value.filter((i) => i !== tag)`: what the X on a badge leaves. */
  function RemoveTag(tags: Tags, tag: string): (r: Tags)
    ensures tag !in r
    ensures forall t :: t != tag ==> (t in r <==> t in tags)
    ensures multiset(r) == multiset(tags)[tag := 0]
  {
    RemoveTagMultiset(tags, tag);
    Filter(tags, IsNot(tag))
  }

  lemma {:induction false} RemoveTagMultiset(tags: Tags, tag: string)
    ensures multiset(Filter(tags, IsNot(tag))) == multiset(tags)[tag := 0]
  {
    if |tags| > 0 {
      RemoveTagMultiset(tags[1..], tag);
      assert tags == [tags[0]] + tags[1..];
    }
  }

  /** Removing a tag keeps the other tags in their order: it distributes over
      any split of the list. */
  lemma RemoveTagKeepsOrder(a: Tags, b: Tags, tag: string)
    ensures RemoveTag(a + b, tag) == RemoveTag(a, tag) + RemoveTag(b, tag)
  {
    FilterConcat(a, b, IsNot(tag));
  }

  datatype Key = Enter | Backspace | OtherKey

  /** The input's `onKeyDown` handler. */
  function KeyDown(s: TagInput, key: Key): (r: TagInput)
    ensures key == Enter ==> r == AddPending(s)
    ensures key == Backspace && s.pending == "" && |s.tags| > 0 ==>
      r.pending == "" && r.tags + [s.tags[|s.tags| - 1]] == s.tags
    ensures key == Backspace && (s.pending != "" || |s.tags| == 0) ==> r == s
    ensures key == OtherKey ==> r == s
  {
    match key
    case Enter => AddPending(s)
    case Backspace =>
      if s.pending == "" && |s.tags| > 0 then
        var popped := s.tags[..|s.tags| - 1];
        assert popped + [s.tags[|s.tags| - 1]] == s.tags;
        s.(tags := popped)
      else s
    case OtherKey => s
  }
}

=== FILE: monthly_chart.dfy ===
/** `weeklyChart`: the dashboard's revenue chart, five buckets each summing the
    revenue of the orders dated a fixed number of days ago. */
module MonthlyChart {
  import opened Seqs
  import opened Dates

  datatype ChartItem = ChartItem(date: Instant, revenue: real)

  /** One bar of the chart; the source calls its label `date`. */
  datatype Bucket = Bucket(date: string, revenue: real)

  const Labels: seq<string> := ["4 weeks ago", "3 weeks ago", "2 weeks ago", "1 weeks ago", "this week"]

  /** How many days before today bucket `i` looks at. */
  function BucketDaysAgo(i: nat): int
  {
    6 - i
  }

  function Revenue(item: ChartItem): real
  {
    item.revenue
  }

  /** Whole days between an item's calendar day and today's. */
  function Age(item: ChartItem, now: Instant): int
  {
    now.day - item.date.day
  }

  /** Reference: revenue of the items exactly `daysAgo` days old. */
  function DayRevenue(items: seq<ChartItem>, daysAgo: int, now: Instant): real
  {
    if |items| == 0 then 0.0
    else (if Age(items[0], now) == daysAgo then items[0].revenue else 0.0) + DayRevenue(items[1..], daysAgo, now)
  }

  /** Reference: revenue of the items between 2 and 6 days old. */
  function WindowRevenue(items: seq<ChartItem>, now: Instant): real
  {
    if |items| == 0 then 0.0
    else (if 2 <= Age(items[0], now) <= 6 then items[0].revenue else 0.0) + WindowRevenue(items[1..], now)
  }

  function OnDay(daysAgo: int, now: Instant): ChartItem -> bool
  {
    (item: ChartItem) => CheckDate(item.date, daysAgo, now)
  }

  lemma {:induction false} FilteredSumIsDayRevenue(items: seq<ChartItem>, daysAgo: int, now: Instant)
    ensures Sum(Filter(items, OnDay(daysAgo, now)), Revenue) == DayRevenue(items, daysAgo, now)
  {
    if |items| > 0 {
      var p := OnDay(daysAgo, now);
      var head := if p(items[0]) then [items[0]] else [];
      assert Filter(items, p) == head + Filter(items[1..], p);
      SumConcat(head, Filter(items[1..], p), Revenue);
      FilteredSumIsDayRevenue(items[1..], daysAgo, now);
    }
  }

  /** `chartItems.filter((order) => checkDate(order.date, daysAgo))
      .reduce((acc, price) => acc + price.revenue, 0)`. */
  function BucketRevenue(items: seq<ChartItem>, daysAgo: int, now: Instant): (r: real)
    ensures r == DayRevenue(items, daysAgo, now)
  {
    FilteredSumIsDayRevenue(items, daysAgo, now);
    Reduce(Filter(items, OnDay(daysAgo, now)), 0.0, Revenue)
  }

  function WeeklyChart(items: seq<ChartItem>, now: Instant): (r: seq<Bucket>)
    ensures |r| == 5
    ensures forall i :: 0 <= i < 5 ==>
      r[i].date == Labels[i] && r[i].revenue == DayRevenue(items, BucketDaysAgo(i), now)
  {
    [ Bucket(Labels[0], BucketRevenue(items, 6, now)),
      Bucket(Labels[1], BucketRevenue(items, 5, now)),
      Bucket(Labels[2], BucketRevenue(items, 4, now)),
      Bucket(Labels[3], BucketRevenue(items, 3, now)),
      Bucket(Labels[4], BucketRevenue(items, 2, now)) ]
  }

  function ChartTotal(r: seq<Bucket>): real
    requires |r| == 5
  {
    r[0].revenue + r[1].revenue + r[2].revenue + r[3].revenue + r[4].revenue
  }

  lemma {:induction false} FiveDaysMakeTheWindow(items: seq<ChartItem>, now: Instant)
    ensures DayRevenue(items, 6, now) + DayRevenue(items, 5, now) + DayRevenue(items, 4, now)
      + DayRevenue(items, 3, now) + DayRevenue(items, 2, now) == WindowRevenue(items, now)
  {
    if |items| > 0 {
      FiveDaysMakeTheWindow(items[1..], now);
    }
  }

  /** The five buckets together hold exactly the revenue of the items 2 to 6 days old. */
  lemma WeeklyChartTotal(items: seq<ChartItem>, now: Instant)
    ensures ChartTotal(WeeklyChart(items, now)) == WindowRevenue(items, now)
  {
    FiveDaysMakeTheWindow(items, now);
  }

  /** No items, no revenue in any bucket. */
  lemma EmptyChart(now: Instant)
    ensures forall i :: 0 <= i < 5 ==> WeeklyChart([], now)[i].revenue == 0.0
  {
  }

  /** An item dated today, yesterday or more than 6 days ago changes no bucket. */
  lemma OutsideWindowIgnored(x: ChartItem, items: seq<ChartItem>, now: Instant)
    requires !(2 <= Age(x, now) <= 6)
    ensures WeeklyChart([x] + items, now) == WeeklyChart(items, now)
  {
    assert ([x] + items)[1..] == items;
  }

  /** An item lands in at most one bucket: of any two buckets, one gets nothing from it. */
  lemma AtMostOneBucket(x: ChartItem, now: Instant)
    ensures forall i, j :: 0 <= i < j < 5 ==>
      WeeklyChart([x], now)[i].revenue == 0.0 || WeeklyChart([x], now)[j].revenue == 0.0
  {
    var r := WeeklyChart([x], now);
    assert [x][1..] == [];
    forall i | 0 <= i < 5
      ensures r[i].revenue == (if Age(x, now) == BucketDaysAgo(i) then x.revenue else 0.0)
    {
      assert r[i].revenue == DayRevenue([x], BucketDaysAgo(i), now);
    }
  }
}

=== FILE: payment.dfy ===
/** The payment step's wrapper: it recomputes the cart total (multiplying in
    the other order) and configures the payment elements with it. */
module Payment {
  import opened Seqs
  import opened ClientStore
  import CartItems

  /** `item.variant.quantity * item.price`. */
  function QuantityTimesPrice(line: CartItem): real
  {
    line.variant.quantity as real * line.price
  }

  /** `cart.reduce((acc, item) => acc + item.variant.quantity * item.price, 0)`:
      the same value as the cart table's total. */
  function PaymentTotal(cart: Cart): (r: real)
    ensures r == CartItems.TotalPrice(cart)
  {
    var r := Reduce(cart, 0.0, QuantityTimesPrice);
    SumExtensional(cart, QuantityTimesPrice, CartItems.LineTotal);
    r
  }

  /** The options given to the payment elements. */
  datatype ElementsOptions = ElementsOptions(mode: string, currency: string, amount: real)

  /** What the payment step renders: the elements' options and the total handed to the form. */
  datatype PaymentProps = PaymentProps(options: ElementsOptions, formTotal: real)

  function Render(cart: Cart): (p: PaymentProps)
    ensures p.options.mode == "payment" && p.options.currency == "usd"
    ensures p.formTotal == Sum(cart, CartItems.LineTotal)
    ensures p.options.amount == 100.0 * p.formTotal
    ensures |cart| == 0 ==> p.formTotal == 0.0 && p.options.amount == 0.0
  {
    var total := PaymentTotal(cart);
    PaymentProps(ElementsOptions("payment", "usd", total * 100.0), total)
  }
}

=== FILE: payment_form.dfy ===
/** The payment form: the payment-intent request built from the cart, and the
    decisions `handleSubmit` takes, as a function of what each collaborator
    (the payment library, the form elements, the server action, the payment
    confirmation) answers. */
module PaymentForm {
  import opened Common
  import opened Seqs
  import opened ClientStore
  import CartItems
  import Payment

  /** One entry of the request's line-item list. */
  datatype LineItemRequest = LineItemRequest(quantity: int, productId: int, title: string, price: real, image: string)

  datatype PaymentIntentRequest = PaymentIntentRequest(amount: real, currency: string, cart: seq<LineItemRequest>)

  /** The entry sent for one cart line; the variant id is not sent. */
  function ToLineItem(line: CartItem): (e: LineItemRequest)
    ensures e.quantity == line.variant.quantity && e.productId == line.id
    ensures e.title == line.name && e.price == line.price && e.image == line.image
  {
    LineItemRequest(line.variant.quantity, line.id, line.name, line.price, line.image)
  }

  /** `cart.map(...)`: one entry per line, in cart order. */
  function LineItems(cart: Cart): (r: seq<LineItemRequest>)
    ensures |r| == |cart|
    ensures forall i :: 0 <= i < |cart| ==> r[i] == ToLineItem(cart[i])
  {
    if |cart| == 0 then [] else [ToLineItem(cart[0])] + LineItems(cart[1..])
  }

  /** The argument of `createPaymentIntent`. */
  function BuildRequest(totalPrice: real, cart: Cart): (r: PaymentIntentRequest)
    ensures r.amount == totalPrice * 100.0 && r.currency == "usd"
    ensures |r.cart| == |cart|
    ensures forall i :: 0 <= i < |cart| ==>
      r.cart[i].quantity == cart[i].variant.quantity && r.cart[i].productId == cart[i].id &&
      r.cart[i].title == cart[i].name && r.cart[i].price == cart[i].price && r.cart[i].image == cart[i].image
  {
    PaymentIntentRequest(totalPrice * 100.0, "usd", LineItems(cart))
  }

  function RequestLineTotal(e: LineItemRequest): real
  {
    e.price * e.quantity as real
  }

  lemma {:induction false} LineItemsTotal(cart: Cart)
    ensures Sum(LineItems(cart), RequestLineTotal) == Sum(cart, CartItems.LineTotal)
  {
    if |cart| > 0 {
      assert LineItems(cart)[1..] == LineItems(cart[1..]);
      LineItemsTotal(cart[1..]);
    }
  }

  /** With the total the payment step computes, the request's amount is 100
      times the total of the line items it lists. */
  lemma RequestAmountMatchesLines(cart: Cart)
    ensures BuildRequest(Payment.PaymentTotal(cart), cart).amount ==
      100.0 * Sum(BuildRequest(Payment.PaymentTotal(cart), cart).cart, RequestLineTotal)
  {
    LineItemsTotal(cart);
  }

  /** The `success` part of the server action's answer. */
  datatype ServerSuccess = ServerSuccess(clientSecretId: string, user: string)

  /** `serverResult.data`: either part may be missing. */
  datatype ServerData = ServerData(success: Option<ServerSuccess>, error: Option<string>)

  /** What the collaborators answer during one submit. */
  datatype SubmitEnv = SubmitEnv(
    hasStripe: bool,                // `useStripe()` returned a client
    hasElements: bool,              // `useElements()` returned the elements
    submitError: Option<string>,    // message of `elements.submit()`'s error
    serverData: Option<ServerData>, // `serverResult?.data`
    confirmError: Option<string>)   // message of `stripe.confirmPayment()`'s error

  datatype ConfirmRequest = ConfirmRequest(clientSecret: string, receiptEmail: string, returnUrl: string)

  /** What a submit leaves behind: the form's state and the calls it made. */
  datatype SubmitOutcome = SubmitOutcome(
    isLoading: bool,
    errorMessage: string,
    request: Option<PaymentIntentRequest>,
    confirm: Option<ConfirmRequest>,
    alert: Option<string>)

  const ReturnUrl: string := "http://localhost:3000/success"

  /** `handleSubmit`, starting from the form's current error message. */
  function HandleSubmit(env: SubmitEnv, errorMessage: string, totalPrice: real, cart: Cart): (o: SubmitOutcome)
    // the request goes out exactly when both clients exist and the elements submit cleanly
    ensures o.request.Some? <==> env.hasStripe && env.hasElements && env.submitError.None?
    ensures o.request.Some? ==> o.request.value == BuildRequest(totalPrice, cart)
    ensures !(env.hasStripe && env.hasElements) ==> !o.isLoading && o.errorMessage == errorMessage
    ensures env.hasStripe && env.hasElements && env.submitError.Some? ==>
      !o.isLoading && o.errorMessage == env.submitError.value
    // confirmation is attempted exactly when the server answers with `success`
    ensures o.confirm.Some? <==>
      o.request.Some? && env.serverData.Some? && env.serverData.value.success.Some?
    ensures o.confirm.Some? ==>
      o.confirm.value.clientSecret == env.serverData.value.success.value.clientSecretId &&
      o.confirm.value.receiptEmail == env.serverData.value.success.value.user
    ensures o.confirm.Some? ==> o.confirm.value.returnUrl == ReturnUrl
    ensures o.confirm.Some? && env.confirmError.Some? ==> o.errorMessage == env.confirmError.value
    // otherwise a request that went out leaves the message as it was
    ensures o.request.Some? && !(o.confirm.Some? && env.confirmError.Some?) ==> o.errorMessage == errorMessage
    // loading is cleared on every path except a server answer without `success`
    ensures o.isLoading <==> o.request.Some? && o.confirm.None?
    // the server's error is alerted only when it is a non-empty string
    ensures o.alert.Some? <==>
      o.request.Some? && env.serverData.Some? && env.serverData.value.error.Some? &&
      env.serverData.value.error.value != ""
    ensures o.alert.Some? ==> o.alert == env.serverData.value.error
  {
    if !env.hasStripe || !env.hasElements then
      SubmitOutcome(false, errorMessage, None, None, None)
    else if env.submitError.Some? then
      SubmitOutcome(false, env.submitError.value, None, None, None)
    else
      var request := BuildRequest(totalPrice, cart);
      var data := env.serverData;
      var alert := if data.Some? && data.value.error.Some? && data.value.error.value != ""
                   then data.value.error else None;
      if data.Some? && data.value.success.Some? then
        var s := data.value.success.value;
        var confirm := ConfirmRequest(s.clientSecretId, s.user, ReturnUrl);
        var message := if env.confirmError.Some? then env.confirmError.value else errorMessage;
        SubmitOutcome(false, message, Some(request), Some(confirm), alert)
      else
        SubmitOutcome(true, errorMessage, Some(request), None, alert)
  }
}

=== FILE: products.dfy ===
/** The storefront catalogue: when the page's `tag` search parameter is set,
    only the variants carrying that tag are listed. */
module Products {
  import opened Common
  import opened Seqs

  datatype VariantTag = VariantTag(tag: string)

  /** A catalogue entry, reduced to what the filter reads. */
  datatype CatalogVariant = CatalogVariant(id: int, productType: string, variantTags: seq<VariantTag>)

  /** `variant.variantTags.some((t) => t.tag === tag)`. */
  predicate HasTag(v: CatalogVariant, tag: string)
  {
    exists i :: 0 <= i < |v.variantTags| && v.variantTags[i].tag == tag
  }

  function Tagged(tag: string): CatalogVariant -> bool
  {
    v => HasTag(v, tag)
  }

  /** `filteredVariants`; `paramTag` is `searchParams.get("tag")`, absent when
      the page has no such parameter. */
  function FilteredVariants(paramTag: Option<string>, variants: seq<CatalogVariant>): (r: seq<CatalogVariant>)
    ensures paramTag == None || paramTag == Some("") ==> r == variants
    ensures paramTag.Some? && paramTag.value != "" ==>
      (forall i :: 0 <= i < |r| ==> r[i] in variants && HasTag(r[i], paramTag.value)) &&
      (forall i :: 0 <= i < |variants| && HasTag(variants[i], paramTag.value) ==> variants[i] in r)
    ensures |r| <= |variants|
  {
    if paramTag.Some? && paramTag.value != "" then Filter(variants, Tagged(paramTag.value))
    else variants
  }

  /** The filter keeps the catalogue's order: it distributes over any split. */
  lemma FilterKeepsOrder(paramTag: Option<string>, a: seq<CatalogVariant>, b: seq<CatalogVariant>)
    ensures FilteredVariants(paramTag, a + b) == FilteredVariants(paramTag, a) + FilteredVariants(paramTag, b)
  {
    if paramTag.Some? && paramTag.value != "" {
      FilterConcat(a, b, Tagged(paramTag.value));
    }
  }
}

=== FILE: register_schema.dfy ===
/** The registration schema: a well-formed email, a password of at least 8
    characters and a name of at least 4, all three required. */
module RegisterSchema {
  import opened Common

  /** The submitted object; a field the client left out is `None`. */
  datatype RegisterInput = RegisterInput(email: Option<string>, password: Option<string>, name: Option<string>)

  /** zod's message for a missing required field. */
  const RequiredMessage: string := "Required"
  const EmailMessage: string := "Invalid Email Address!"
  const PasswordMessage: string := "Password must be at least 8 character!"
  const NameMessage: string := "Please add atleast 4 character!"

  function Required(field: string, o: Option<string>, check: string -> seq<Issue>): seq<Issue>
  {
    if o.None? then [Issue([Key(field)], RequiredMessage)] else check(o.value)
  }

  /** The issues `RegisterSchema` reports; `isEmail` is the email-format test,
      left abstract. */
  function Issues(input: RegisterInput, isEmail: string -> bool): (r: seq<Issue>)
    ensures r == [] <==>
      && input.email.Some? && isEmail(input.email.value)
      && input.password.Some? && |input.password.value| >= 8
      && input.name.Some? && |input.name.value| >= 4
    ensures input.email.None? || input.password.None? || input.name.None? ==>
      exists k :: 0 <= k < |r| && r[k].message == RequiredMessage
  {
    var emailIssues := Required("email", input.email,
      e => if isEmail(e) then [] else [Issue([Key("email")], EmailMessage)]);
    var passwordIssues := Required("password", input.password, p => MinLength("password", p, 8, PasswordMessage));
    var nameIssues := Required("name", input.name, n => MinLength("name", n, 4, NameMessage));
    var r := emailIssues + passwordIssues + nameIssues;
    assert input.email.None? ==> r[0].message == RequiredMessage;
    assert input.email.Some? && input.password.None? ==> r[|emailIssues|].message == RequiredMessage;
    assert input.email.Some? && input.password.Some? && input.name.None? ==>
      r[|emailIssues| + |passwordIssues|].message == RequiredMessage;
    r
  }

  /** The password and name bounds are exact: 8 and 4 characters pass, one fewer fails. */
  lemma LengthBoundaries(email: string, isEmail: string -> bool)
    requires isEmail(email)
    ensures Issues(RegisterInput(Some(email), Some("abcdefgh"), Some("abcd")), isEmail) == []
    ensures Issues(RegisterInput(Some(email), Some("abcdefg"), Some("abcd")), isEmail) != []
    ensures Issues(RegisterInput(Some(email), Some("abcdefgh"), Some("abc")), isEmail) != []
  {
  }
}

=== FILE: review_average.dfy ===
/** `getReviewAverage`: the mean of a product's review ratings. */
module ReviewAverage {
  import opened Seqs

  /** A JavaScript number as far as the average needs: a real value, or NaN. */
  datatype JsNumber = NaN | Num(value: real)

  function Rating(x: real): real
  {
    x
  }

  /** JavaScript's `/`; this model only divides zero by zero or by a non-zero number. */
  function Divide(a: real, b: real): (r: JsNumber)
    requires b != 0.0 || a == 0.0
    ensures b == 0.0 <==> r == NaN
    ensures r.Num? ==> r.value * b == a
  {
    if b == 0.0 then NaN else Num(a / b)
  }

  /** `reviews.reduce((acc, review) => acc + review, 0) / reviews.length`. */
  function GetReviewAverage(reviews: seq<real>): (r: JsNumber)
    ensures r == NaN <==> |reviews| == 0
    ensures r.Num? ==> r.value * |reviews| as real == Sum(reviews, Rating)
  {
    Divide(Reduce(reviews, 0.0, Rating), |reviews| as real)
  }

  lemma SingleReview(x: real)
    ensures GetReviewAverage([x]) == Num(x)
  {
  }

  /** The average lies between the smallest and the largest rating. */
  lemma AverageWithinBounds(reviews: seq<real>, lo: real, hi: real)
    requires |reviews| > 0
    requires forall i :: 0 <= i < |reviews| ==> lo <= reviews[i] <= hi
    ensures lo <= GetReviewAverage(reviews).value <= hi
  {
    SumBounds(reviews, Rating, lo, hi);
    var n := |reviews| as real;
    var v := GetReviewAverage(reviews).value;
    assert v * n == Sum(reviews, Rating);
    assert (v - hi) * n <= 0.0;
    assert (v - lo) * n >= 0.0;
  }

  /** Ratings that are all equal average to that rating. */
  lemma UniformReviews(reviews: seq<real>, c: real)
    requires |reviews| > 0
    requires forall i :: 0 <= i < |reviews| ==> reviews[i] == c
    ensures GetReviewAverage(reviews) == Num(c)
  {
    AverageWithinBounds(reviews, c, c);
  }

  /** The average does not depend on the order of the ratings. */
  lemma OrderIndependent(a: seq<real>, b: seq<real>)
    requires multiset(a) == multiset(b)
    ensures GetReviewAverage(a) == GetReviewAverage(b)
  {
    SumPermutation(a, b, Rating);
    assert |a| == |multiset(a)| == |multiset(b)| == |b|;
  }
}

=== FILE: seqs.dfy ===
/** Sums and filters over sequences, as the source computes them with
    `Array.prototype.reduce` and `Array.prototype.filter`. */
module Seqs {

  /** Reference sum of `f` over `s`, folded from the right. */
  function Sum<T>(s: seq<T>, f: T -> real): real
  {
    if |s| == 0 then 0.0 else f(s[0]) + Sum(s[1..], f)
  }

  /** `s.reduce((acc, x) => acc + f(x), acc)`: a left fold from `acc`. */
  function Reduce<T>(s: seq<T>, acc: real, f: T -> real): (r: real)
    ensures r == acc + Sum(s, f)
  {
    if |s| == 0 then acc else Reduce(s[1..], acc + f(s[0]), f)
  }

  /** `s.filter(p)`: the elements satisfying `p`, in their original order. */
  function Filter<T>(s: seq<T>, p: T -> bool): (r: seq<T>)
    ensures |r| <= |s|
    ensures forall i :: 0 <= i < |r| ==> r[i] in s && p(r[i])
    ensures forall i :: 0 <= i < |s| && p(s[i]) ==> s[i] in r
  {
    if |s| == 0 then []
    else (if p(s[0]) then [s[0]] else []) + Filter(s[1..], p)
  }

  lemma {:induction false} FilterConcat<T>(a: seq<T>, b: seq<T>, p: T -> bool)
    ensures Filter(a + b, p) == Filter(a, p) + Filter(b, p)
  {
    if |a| == 0 {
      assert a + b == b;
    } else {
      assert (a + b)[1..] == a[1..] + b;
      FilterConcat(a[1..], b, p);
    }
  }

  lemma {:induction false} SumConcat<T>(a: seq<T>, b: seq<T>, f: T -> real)
    ensures Sum(a + b, f) == Sum(a, f) + Sum(b, f)
  {
    if |a| == 0 {
      assert a + b == b;
    } else {
      assert (a + b)[1..] == a[1..] + b;
      SumConcat(a[1..], b, f);
    }
  }

  /** Summing is insensitive to the order of the elements. */
  lemma {:induction false} SumPermutation<T>(a: seq<T>, b: seq<T>, f: T -> real)
    requires multiset(a) == multiset(b)
    ensures Sum(a, f) == Sum(b, f)
  {
    if |a| == 0 {
      assert |multiset(b)| == 0;
    } else {
      var x := a[0];
      assert x in multiset(b);
      var i :| 0 <= i < |b| && b[i] == x;
      var rest := b[..i] + b[i + 1..];
      RemoveAtMultiset(b, i);
      assert a == [x] + a[1..];
      assert multiset(a[1..]) == multiset(rest);
      SumPermutation(a[1..], rest, f);
      SumRemoveAt(b, i, f);
    }
  }

  /** Taking out the element at `i` removes one copy of it. */
  lemma RemoveAtMultiset<T>(s: seq<T>, i: nat)
    requires i < |s|
    ensures multiset(s[..i] + s[i + 1..]) == multiset(s) - multiset{s[i]}
  {
    assert s == s[..i] + [s[i]] + s[i + 1..];
  }

  /** The sum is the element at `i` plus the sum of the others. */
  lemma SumRemoveAt<T>(s: seq<T>, i: nat, f: T -> real)
    requires i < |s|
    ensures Sum(s, f) == f(s[i]) + Sum(s[..i] + s[i + 1..], f)
  {
    var front, x, back := s[..i], s[i], s[i + 1..];
    assert s == front + ([x] + back);
    SumConcat(front, [x] + back, f);
    assert ([x] + back)[1..] == back;
    SumConcat(front, back, f);
  }

  /** Replacing one element changes the sum by the difference of the two terms. */
  lemma {:induction false} SumUpdate<T>(s: seq<T>, i: nat, x: T, f: T -> real)
    requires i < |s|
    ensures Sum(s[i := x], f) == Sum(s, f) - f(s[i]) + f(x)
  {
    if i == 0 {
      assert s[i := x][1..] == s[1..];
    } else {
      assert s[i := x][1..] == s[1..][i - 1 := x];
      SumUpdate(s[1..], i - 1, x, f);
    }
  }

  /** Two pointwise-equal summands give the same sum. */
  lemma {:induction false} SumExtensional<T>(s: seq<T>, f: T -> real, g: T -> real)
    requires forall x :: x in s ==> f(x) == g(x)
    ensures Sum(s, f) == Sum(s, g)
  {
    if |s| > 0 {
      assert forall x :: x in s[1..] ==> x in s;
      SumExtensional(s[1..], f, g);
    }
  }

  /** Every summand lies in [lo, hi], so the sum lies in [|s| * lo, |s| * hi]. */
  lemma {:induction false} SumBounds<T>(s: seq<T>, f: T -> real, lo: real, hi: real)
    requires forall i :: 0 <= i < |s| ==> lo <= f(s[i]) <= hi
    ensures |s| as real * lo <= Sum(s, f) <= |s| as real * hi
  {
    if |s| > 0 {
      var tail := s[1..];
      assert forall i :: 0 <= i < |tail| ==> tail[i] == s[i + 1];
      SumBounds(tail, f, lo, hi);
      assert lo <= f(s[0]) <= hi;
      assert Sum(s, f) == f(s[0]) + Sum(tail, f);
      StepBounds(|s| as real, |tail| as real, Sum(tail, f), f(s[0]), lo, hi);
    }
  }

  /** The arithmetic of one induction step of `SumBounds`. */
  lemma StepBounds(n: real, m: real, t: real, a: real, lo: real, hi: real)
    requires n == m + 1.0
    requires m * lo <= t <= m * hi && lo <= a <= hi
    ensures n * lo <= a + t <= n * hi
  {
    OneMore(m, lo);
    OneMore(m, hi);
  }

  lemma OneMore(m: real, x: real)
    ensures (m + 1.0) * x == m * x + x
  {
  }
}

=== FILE: settings_schema.dfy ===
/** The account-settings schema: every field optional, both password fields at
    least 8 characters when given, and a refine that requires the two
    password fields to be equal. */
module SettingsSchema {
  import opened Common

  datatype Settings = Settings(
    name: Option<string>,
    image: Option<string>,
    isTwoFactorEnable: Option<bool>,
    email: Option<string>,
    password: Option<string>,
    newPassword: Option<string>)

  /** zod's default messages for `.email()` and `.min(8)`. */
  const EmailMessage: string := "Invalid email"
  const MinMessage: string := "String must contain at least 8 character(s)"
  const SameMessage: string := "Password must be same!"

  function OptionalEmail(o: Option<string>, isEmail: string -> bool): seq<Issue>
  {
    if o.Some? && !isEmail(o.value) then [Issue([Key("email")], EmailMessage)] else []
  }

  function OptionalMin(field: string, o: Option<string>): seq<Issue>
  {
    if o.Some? then MinLength(field, o.value, 8, MinMessage) else []
  }

  /** The field rules, shared by the schema as written and the intended one. */
  predicate FieldsValid(s: Settings, isEmail: string -> bool)
  {
    && (s.email.None? || isEmail(s.email.value))
    && (s.password.None? || |s.password.value| >= 8)
    && (s.newPassword.None? || |s.newPassword.value| >= 8)
  }

  /** The issues `SettingSchema` reports. zod still runs the refine when a
      field only failed a length or format check, so its issue can come on top.
      `isEmail` is the email-format test, left abstract. */
  function Issues(s: Settings, isEmail: string -> bool): (r: seq<Issue>)
    ensures r == [] <==> FieldsValid(s, isEmail) && s.password == s.newPassword
    ensures s.password != s.newPassword ==> Issue([], SameMessage) in r
  {
    OptionalEmail(s.email, isEmail)
    + OptionalMin("password", s.password)
    + OptionalMin("newPassword", s.newPassword)
    + (if s.password != s.newPassword then [Issue([], SameMessage)] else [])
  }

  /** Giving exactly one of the two password fields is always rejected. */
  lemma OneSidedPasswordRejected(s: Settings, isEmail: string -> bool)
    requires s.password.Some? != s.newPassword.Some?
    ensures Issues(s, isEmail) != []
  {
  }

  /** `name` and `image` take any string or none. */
  lemma NameAndImageUnconstrained(s: Settings, name: Option<string>, image: Option<string>, isEmail: string -> bool)
    ensures Issues(s.(name := name, image := image), isEmail) == Issues(s, isEmail)
  {
  }

  /** What the settings action does to the stored password column. */
  datatype PasswordOutcome =
    | PasswordKept                            // `password: undefined` leaves the column as it is
    | PasswordHashed(newPassword: string)     // the column gets the bcrypt hash of `newPassword`
    | PasswordStoredUnhashed(written: string) // the form's current password is written as it is
    | Rejected(error: string)

  const MismatchMessage: string := "Current password does not match"
  const SameAsOldMessage: string := "New password is the same as the old password"

  /** For a session signed in through an OAuth provider, the action discards the
      email and both password fields before going on. It also clears
      `isTwoFactorEnabled`, a key the parsed values never carry, so the schema's
      `isTwoFactorEnable` survives. */
  function ClearForOAuth(s: Settings, isOAuth: bool): (r: Settings)
    ensures !isOAuth ==> r == s
    ensures isOAuth ==> r.email.None? && r.password.None? && r.newPassword.None?
    ensures r.name == s.name && r.image == s.image && r.isTwoFactorEnable == s.isTwoFactorEnable
  {
    if isOAuth then s.(email := None, password := None, newPassword := None)
    else s
  }

  /** The value the action hands the `twoFactorEnabled` column:
      `values.isTwoFactorEnabled`, a key the parsed values never carry, so it is
      always `undefined` and the column is left as it is. */
  function TwoFactorWrite(s: Settings, isOAuth: bool): (w: Option<bool>)
  {
    None
  }

  /** As written, the two-factor choice never reaches the column, whatever the
      accepted settings say and whoever is signed in. */
  lemma TwoFactorChoiceIgnored(s: Settings, isEmail: string -> bool, isOAuth: bool)
    requires Issues(s, isEmail) == [] && s.isTwoFactorEnable.Some?
    ensures TwoFactorWrite(s, isOAuth) != ClearForOAuth(s, isOAuth).isTwoFactorEnable
  {
  }

  /** The evident intent: the column receives the schema's two-factor flag, which
      an OAuth session does not get to set. */
  function IntendedTwoFactorWrite(s: Settings, isOAuth: bool): (w: Option<bool>)
    ensures isOAuth ==> w.None?
    ensures !isOAuth ==> w == s.isTwoFactorEnable
    ensures !isOAuth && s.isTwoFactorEnable.Some? ==> w != TwoFactorWrite(s, isOAuth)
  {
    if isOAuth then None else ClearForOAuth(s, isOAuth).isTwoFactorEnable
  }

  /** Both password fields and the stored hash are present and non-empty
      (JavaScript truthiness of three strings). */
  predicate PasswordChangeRequested(s: Settings, stored: Option<string>)
  {
    && s.password.Some? && s.password.value != ""
    && s.newPassword.Some? && s.newPassword.value != ""
    && stored.Some? && stored.value != ""
  }

  /** The settings action's effect on the password (server/actions/settings.ts):
      after the OAuth clearing, with both fields and a stored hash the current
      password must match the hash and the new one must not, and the new one is
      hashed; whatever `values.password` then holds is written, and only an
      absent one leaves the column alone. `matches` stands for `bcrypt.compare`. */
  function PasswordStep(s: Settings, isOAuth: bool, stored: Option<string>, matches: (string, string) -> bool): (o: PasswordOutcome)
    ensures isOAuth ==> o == PasswordKept
    ensures !isOAuth && !PasswordChangeRequested(s, stored) ==>
      o == (if s.password.Some? then PasswordStoredUnhashed(s.password.value) else PasswordKept)
    ensures !isOAuth && PasswordChangeRequested(s, stored) && !matches(s.password.value, stored.value) ==>
      o == Rejected(MismatchMessage)
    ensures !isOAuth && PasswordChangeRequested(s, stored) && matches(s.password.value, stored.value) ==>
      if matches(s.newPassword.value, stored.value) then o == Rejected(SameAsOldMessage)
      else o == PasswordHashed(s.newPassword.value)
    // conversely, each outcome other than leaving the column alone pins its cause
    ensures o.PasswordHashed? ==>
      !isOAuth && s.newPassword == Some(o.newPassword) && s.password.Some? && stored.Some? &&
      matches(s.password.value, stored.value) &&
      !matches(o.newPassword, stored.value)
    ensures o.Rejected? ==> !isOAuth && PasswordChangeRequested(s, stored)
    ensures o.PasswordStoredUnhashed? ==>
      !isOAuth && s.password == Some(o.written) && !PasswordChangeRequested(s, stored)
  {
    var v := ClearForOAuth(s, isOAuth);
    if PasswordChangeRequested(v, stored) then
      if !matches(v.password.value, stored.value) then Rejected(MismatchMessage)
      else if matches(v.newPassword.value, stored.value) then Rejected(SameAsOldMessage)
      else PasswordHashed(v.newPassword.value)
    else if v.password.Some? then PasswordStoredUnhashed(v.password.value)
    else PasswordKept
  }

  /** As written, the schema only lets a password through together with an equal
      new password, so the action never hashes a new password, and against a
      stored hash a request that carries a password is always rejected. */
  lemma PasswordChangeImpossible(s: Settings, isEmail: string -> bool, isOAuth: bool, stored: Option<string>,
                                 matches: (string, string) -> bool)
    requires Issues(s, isEmail) == []
    ensures !PasswordStep(s, isOAuth, stored, matches).PasswordHashed?
    ensures !isOAuth && s.password.Some? && stored.Some? && stored.value != "" ==>
      PasswordStep(s, isOAuth, stored, matches).Rejected?
  {
    if !isOAuth && s.password.Some? && stored.Some? && stored.value != "" {
      assert |s.password.value| >= 8;
      assert PasswordChangeRequested(s, stored);
    }
  }

  /** As written, a user with no stored hash who submits a current and an equal
      new password gets that password written into the column in plain text. */
  lemma PlainTextPasswordWritten(isEmail: string -> bool, matches: (string, string) -> bool)
    ensures Issues(Settings(None, None, None, None, Some("abcdefgh"), Some("abcdefgh")), isEmail) == []
    ensures PasswordStep(Settings(None, None, None, None, Some("abcdefgh"), Some("abcdefgh")), false, None, matches)
            == PasswordStoredUnhashed("abcdefgh")
    ensures PasswordStep(Settings(None, None, None, None, Some("abcdefgh"), Some("abcdefgh")), false, Some(""), matches)
            == PasswordStoredUnhashed("abcdefgh")
  {
  }

  /** The password effect the action evidently means: the column is written only
      with the hash of a new password that the current one authorises. */
  function IntendedPasswordStep(s: Settings, isOAuth: bool, stored: Option<string>, matches: (string, string) -> bool): (o: PasswordOutcome)
    ensures !o.PasswordStoredUnhashed?
    ensures o.PasswordHashed? ==>
      !isOAuth && PasswordChangeRequested(s, stored) && s.newPassword == Some(o.newPassword) &&
      matches(s.password.value, stored.value) && !matches(o.newPassword, stored.value)
    // it differs from the action as written only where that one writes plain text
    ensures PasswordStep(s, isOAuth, stored, matches).PasswordStoredUnhashed? ==> o == PasswordKept
    ensures !PasswordStep(s, isOAuth, stored, matches).PasswordStoredUnhashed? ==>
      o == PasswordStep(s, isOAuth, stored, matches)
  {
    var v := ClearForOAuth(s, isOAuth);
    if PasswordChangeRequested(v, stored) then
      if !matches(v.password.value, stored.value) then Rejected(MismatchMessage)
      else if matches(v.newPassword.value, stored.value) then Rejected(SameAsOldMessage)
      else PasswordHashed(v.newPassword.value)
    else PasswordKept
  }

  /** A concrete change of password that the schema as written rejects. */
  lemma DistinctPasswordsRejected(isEmail: string -> bool)
    ensures Issues(Settings(None, None, None, None, Some("oldpass12"), Some("newpass34")), isEmail) != []
  {
    assert "oldpass12" != "newpass34" by { assert "oldpass12"[0] != "newpass34"[0]; }
  }

  /** The refine the action needs: a current password must come with a new one. */
  function IntendedIssues(s: Settings, isEmail: string -> bool): (r: seq<Issue>)
    ensures r == [] <==> FieldsValid(s, isEmail) && (s.password.Some? ==> s.newPassword.Some?)
  {
    OptionalEmail(s.email, isEmail)
    + OptionalMin("password", s.password)
    + OptionalMin("newPassword", s.newPassword)
    + (if s.password.Some? && s.newPassword.None? then [Issue([Key("newPassword")], "New password is required")] else [])
  }

  /** With the intended refine, every settings value the schema accepts that
      carries a current password also carries a new one, so for a user signed in
      with a password the action hashes the new password whenever the current
      one matches the stored hash and the new one does not. */
  lemma IntendedAllowsPasswordChange(s: Settings, isEmail: string -> bool, stored: Option<string>,
                                     matches: (string, string) -> bool)
    requires IntendedIssues(s, isEmail) == [] && s.password.Some?
    requires stored.Some? && stored.value != ""
    requires matches(s.password.value, stored.value) && !matches(s.newPassword.value, stored.value)
    ensures PasswordStep(s, false, stored, matches) == PasswordHashed(s.newPassword.value)
    ensures IntendedPasswordStep(s, false, stored, matches) == PasswordHashed(s.newPassword.value)
  {
    assert |s.password.value| >= 8 && |s.newPassword.value| >= 8;
    assert PasswordChangeRequested(s, stored);
  }

  /** The request the schema as written rejects passes the intended one and is
      carried out when the stored hash is that of the current password. */
  lemma IntendedAcceptsDistinctPasswords(isEmail: string -> bool)
    ensures IntendedIssues(Settings(None, None, None, None, Some("oldpass12"), Some("newpass34")), isEmail) == []
    ensures IntendedPasswordStep(Settings(None, None, None, None, Some("oldpass12"), Some("newpass34")),
                                 false, Some("oldpass12"), (p: string, h: string) => p == h)
            == PasswordHashed("newpass34")
  {
    assert "oldpass12" != "newpass34" by { assert "oldpass12"[0] != "newpass34"[0]; }
  }
}

=== FILE: variant_images.dfy ===
/** The variant form's image list: placeholders appended before an upload,
    replaced by the uploaded files afterwards, and the trash action. */
module VariantImages {
  import opened Common
  import opened VariantSchema

  /** A file the shopkeeper dropped, before upload. */
  datatype LocalFile = LocalFile(name: string, size: int)

  /** A file as the upload service reports it back. */
  datatype UploadedFile = UploadedFile(url: string, name: string, size: int, key: string)

  /** The image list after the before-upload hook, and the files the hook hands on. */
  datatype BeforeUpload = BeforeUpload(images: seq<VariantImage>, files: seq<LocalFile>)

  /** `onBeforeUploadBegin`: one placeholder per file, in file order, whose url
      is the preview `URL.createObjectURL(file)` gave (`blobUrls[i]` for `files[i]`;
      such urls always begin with "blob:"). */
  function BeforeUploadBegin(images: seq<VariantImage>, files: seq<LocalFile>, blobUrls: seq<string>): (r: BeforeUpload)
    requires |blobUrls| == |files|
    requires forall i :: 0 <= i < |blobUrls| ==> StartsWith(blobUrls[i], "blob:")
    ensures |r.images| == |images| + |files|
    ensures r.images[..|images|] == images
    ensures forall i :: 0 <= i < |files| ==>
      r.images[|images| + i].name == files[i].name &&
      r.images[|images| + i].size == files[i].size &&
      StartsWith(r.images[|images| + i].url, "blob:")
    ensures forall i :: 0 <= i < |files| ==>
      r.images[|images| + i] == VariantImage(blobUrls[i], files[i].size, None, None, files[i].name)
    ensures r.files == files
  {
    var placeholders := seq(|files|, i requires 0 <= i < |files| =>
      VariantImage(blobUrls[i], files[i].size, None, None, files[i].name));
    BeforeUpload(images + placeholders, files)
  }

  /** `files.find((img) => img.name === name)`. */
  function FindByName(files: seq<UploadedFile>, name: string): (r: Option<UploadedFile>)
    ensures r.None? <==> forall i :: 0 <= i < |files| ==> files[i].name != name
    ensures r.Some? ==>
      exists i :: 0 <= i < |files| && files[i] == r.value && files[i].name == name &&
                  forall j :: 0 <= j < i ==> files[j].name != name
  {
    if |files| == 0 then None
    else if files[0].name == name then Some(files[0])
    else
      var r := FindByName(files[1..], name);
      assert forall i :: 1 <= i < |files| ==> files[i] == files[1..][i - 1];
      r
  }

  /** The replacement `update` writes: its fields come from the uploaded file,
      and the image loses any `id` it had. */
  function FromUpload(f: UploadedFile): VariantImage
  {
    VariantImage(f.url, f.size, Some(f.key), None, f.name)
  }

  /** `onClientUploadComplete`: every image whose url starts with "blob:" is
      replaced by the first uploaded file of the same name, if any. */
  function ClientUploadComplete(images: seq<VariantImage>, uploaded: seq<UploadedFile>): (r: seq<VariantImage>)
    ensures |r| == |images|
    ensures forall i :: 0 <= i < |images| && !StartsWith(images[i].url, "blob:") ==> r[i] == images[i]
    ensures forall i :: 0 <= i < |images| && StartsWith(images[i].url, "blob:") ==>
      match FindByName(uploaded, images[i].name)
      case None => r[i] == images[i]
      case Some(f) => r[i] == FromUpload(f) && f.name == images[i].name
  {
    seq(|images|, i requires 0 <= i < |images| =>
      SearchZeroIffStartsWith(images[i].url, "blob:");
      if Search(images[i].url, "blob:") == 0 then
        match FindByName(uploaded, images[i].name)
        case Some(f) => FromUpload(f)
        case None => images[i]
      else images[i])
  }

  /** Once every preview has a same-named uploaded file with a real url, the
      list passes the schema's url rule. */
  lemma UploadCompleteMakesImagesReady(images: seq<VariantImage>, uploaded: seq<UploadedFile>)
    requires forall i :: 0 <= i < |images| && StartsWith(images[i].url, "blob:") ==>
      exists j :: 0 <= j < |uploaded| && uploaded[j].name == images[i].name
    requires forall j :: 0 <= j < |uploaded| ==> !StartsWith(uploaded[j].url, "blob:")
    ensures ImagesReady(ClientUploadComplete(images, uploaded))
  {
    var r := ClientUploadComplete(images, uploaded);
    forall i | 0 <= i < |r|
      ensures !StartsWith(r[i].url, "blob:")
    {
      if StartsWith(images[i].url, "blob:") {
        var f := FindByName(uploaded, images[i].name);
        assert f.Some?;
        assert f.value in uploaded;
      }
    }
  }

  /** While files are uploading, the form cannot pass its schema. */
  lemma PlaceholdersBlockSubmit(images: seq<VariantImage>, files: seq<LocalFile>, blobUrls: seq<string>)
    requires |blobUrls| == |files| && |files| > 0
    requires forall i :: 0 <= i < |blobUrls| ==> StartsWith(blobUrls[i], "blob:")
    ensures !ImagesReady(BeforeUploadBegin(images, files, blobUrls).images)
  {
    var r := BeforeUploadBegin(images, files, blobUrls);
    assert StartsWith(r.images[|images| + 0].url, "blob:");
  }

  /** `remove(index)` from the trash button of row `index`. */
  function Remove(images: seq<VariantImage>, index: nat): (r: seq<VariantImage>)
    requires index < |images|
    ensures |r| == |images| - 1
    ensures r[..index] == images[..index] && r[index..] == images[index + 1..]
    ensures multiset(r) + multiset{images[index]} == multiset(images)
  {
    var r := images[..index] + images[index + 1..];
    assert images == images[..index] + [images[index]] + images[index + 1..];
    r
  }
}

=== FILE: variant_schema.dfy ===
/** The product-variant form's schema: minimum lengths for product type and
    colour, and the rule that no image may still point at a local `blob:`
    preview. */
module VariantSchema {
  import opened Common

  /** One image of a variant; `key` and `id` are optional. */
  datatype VariantImage = VariantImage(url: string, size: int, key: Option<string>, id: Option<int>, name: string)

  datatype VariantForm = VariantForm(
    id: int,
    productId: int,
    editMode: bool,
    productType: string,
    color: string,
    tags: seq<string>,
    variantImages: seq<VariantImage>)

  const ProductTypeMessage: string := "Product type must be at least 3 characters long!"
  const ColorMessage: string := "Color must be at least 3 characters long!"
  const TagsMessage: string := "Please provide at least 1 tag!"
  const UploadMessage: string := "Please wait for the image to upload!"

  /** The url refine: `url.search("blob:") !== 0`. */
  predicate UrlAccepted(url: string)
  {
    Search(url, "blob:") != 0
  }

  /** No image is a local preview still waiting for its upload. */
  predicate ImagesReady(images: seq<VariantImage>)
  {
    forall i :: 0 <= i < |images| ==> !StartsWith(images[i].url, "blob:")
  }

  /** The url refine's issues for `images[from..]`, in array order. */
  function ImageIssues(images: seq<VariantImage>, from: nat): (r: seq<Issue>)
    requires from <= |images|
    ensures r == [] <==> forall i :: from <= i < |images| ==> !StartsWith(images[i].url, "blob:")
    ensures forall k :: 0 <= k < |r| ==> r[k].message == UploadMessage
    decreases |images| - from
  {
    if from == |images| then []
    else
      SearchZeroIffStartsWith(images[from].url, "blob:");
      var here := if UrlAccepted(images[from].url) then []
                  else [Issue([Key("variantImages"), Index(from), Key("url")], UploadMessage)];
      here + ImageIssues(images, from + 1)
  }

  /** The issues `variantSchema` reports for a form, in field order. */
  function Issues(v: VariantForm): (r: seq<Issue>)
    ensures r == [] <==> |v.productType| >= 3 && |v.color| >= 3 && ImagesReady(v.variantImages)
    ensures forall k :: 0 <= k < |r| ==>
      r[k].message in {ProductTypeMessage, ColorMessage, UploadMessage}
  {
    MinLength("productType", v.productType, 3, ProductTypeMessage)
    + MinLength("color", v.color, 3, ColorMessage)
    // `z.array(z.string(), { message })`: the message is only for a non-array value
    + ImageIssues(v.variantImages, 0)
  }

  /** The url refine rejects exactly the urls that begin with "blob:"; an
      occurrence anywhere else does not matter. */
  lemma UrlAcceptedIffNoBlobPrefix(u: string)
    ensures UrlAccepted(u) <==> !StartsWith(u, "blob:")
  {
    SearchZeroIffStartsWith(u, "blob:");
  }

  /** An instance: an uploaded file's url with "blob:" inside its path passes. */
  lemma BlobElsewherePasses()
    ensures OccursAt("https://utfs.io/f/blob:1", "blob:", 18)
    ensures UrlAccepted("https://utfs.io/f/blob:1")
  {
    var u := "https://utfs.io/f/blob:1";
    SearchZeroIffStartsWith(u, "blob:");
    assert u[..5] != "blob:" by { assert u[0] == 'h'; }
    assert u[18..23] == "blob:";
  }

  /** As written, an empty tag list passes, although the message asks for one tag. */
  lemma EmptyTagsAccepted()
    ensures Issues(VariantForm(1, 1, false, "Hoodie", "Red", [], [])) == []
  {
  }

  /** The schema with the tag minimum its message announces (`.min(1)`). */
  function IntendedIssues(v: VariantForm): (r: seq<Issue>)
    ensures r == [] <==> |v.productType| >= 3 && |v.color| >= 3 && |v.tags| >= 1 && ImagesReady(v.variantImages)
  {
    MinLength("productType", v.productType, 3, ProductTypeMessage)
    + MinLength("color", v.color, 3, ColorMessage)
    + (if |v.tags| < 1 then [Issue([Key("tags")], TagsMessage)] else [])
    + ImageIssues(v.variantImages, 0)
  }

  /** The intended schema rejects an empty tag list and otherwise agrees with
      the schema as written. */
  lemma IntendedRejectsOnlyMore(v: VariantForm)
    ensures IntendedIssues(v) == [] <==> Issues(v) == [] && |v.tags| >= 1
    ensures |v.tags| == 0 ==> Issue([Key("tags")], TagsMessage) in IntendedIssues(v)
  {
  }
}
